=== FILE: README.md ===
# GitHub webhook receiver: a Dafny model

This project models the ingestion pipeline of a small GitHub webhook receiver (`app.py`). Four pieces are covered.

- **Signature gate.** With a non-empty `WEBHOOK_SECRET`, a delivery may proceed only when its `X-Hub-Signature-256` header is exactly `sha256=` followed by the lowercase hex HMAC-SHA256 of the raw body.
- **Dispatcher.** It maps the `X-GitHub-Event` header to a handler. The answer is 400 for a missing or unsupported kind, 200 when the event was handled, and 500 when the handler, the insert or the decoding of the body raised.
- **Normalizers.** `handle_push` and `handle_pull_request` turn a decoded payload into at most one activity record. Timestamps are parsed with `strptime` and the pattern `%Y-%m-%dT%H:%M:%SZ`.
- **Store.** It appends one record on success. `GET /api/events` reads back the ten newest records, newest first.

Everything is a pure function. A request is a value; the document store is a value (`Store.Store`: its records, whether the database answers, and how deeply the server lets a document nest) threaded through `Webhook.Handle`. A decoded payload is a `Json.Json` value, with Python truthiness given by `Json.Truthy`.

Modules, leaves first:

- `Wrappers`: `Option`, `Result`.
- `Exceptions`: the Python exceptions a delivery can meet, and `Raises<T>`.
- `Text`: `split('/')` and its inverse `join`, the last path segment, and `str(int)` with its inverse.
- `Json`: decoded values, `dict.get`, subscripts and the exceptions they raise, `str()`/`repr()`.
- `Signature`: `hexdigest`, the expected header, and the gate.
- `Timestamp`: the `strptime` pattern, the zero-padded rendering it inverts, and chronological order.
- `Store`: the record, `insert_one`, and the sorted bounded read.
- `Normalize`: the two handlers and independent descriptions of the record each one should build.
- `Webhook`: the two routes.

Each property is checked against a partner definition written in different terms:

- The normalizers are checked against `Path`-based descriptions of which payloads are usable and what they produce (`PushReady`/`PushSpec`, `PullReady`/`PullSpec`).
- The timestamp parser is checked against `Spell`, which lists every text the pattern admits for a datetime.
- `split` is checked against `join`, `hexdigest` against `Unhex`, and `str(int)` against `ParseDecimal`.

The model follows the code in the following places:

- **Normalizer errors.** A normalizer that raises (missing `head_commit` or `pull_request`, a missing key, a non-dict where a dict is subscripted, an unparsable timestamp) answers **500 "Processing failed"** through the route's catch-all. It does not answer with a client error. The same holds when `insert_one` itself raises.
- **Non-ASCII signature header.** With a secret set, a non-empty signature header that contains a non-ASCII character makes `hmac.compare_digest` raise TypeError. That happens outside the route's `try`, so the answer is the framework's 500 page, not 403 (`Signature.Verdict.Crash`).
- **Ignored pull-request actions.** A pull-request action other than a merged close, `opened` or `reopened` is ignored: 200 and nothing stored. A `closed` action reads `pr.get('merged')`, so a truthy `pull_request` that is not a dict raises there (500). Under any other ignored action it is never touched (200).
- **Stored values.** Fields copied from the payload (`commit['id']`, author name or login, head/base `ref`) are stored as whatever JSON value they hold, provided it can be stored as BSON. An integer outside 64 signed bits, a dict key containing a NUL character, or non-empty lists and dicts nested past the server's depth limit (`Store.maxNesting`, a deployment setting, with the stored document as the first level), anywhere in such a value, makes `insert_one` raise, and the route answers 500 storing nothing (`Store.Storable`). `request_id` of a pull request is `str(number)`: the canonical decimal for an integer, `None`/`True`/`False`, or the Python repr of a list or dict.
- **Decoding comes first.** The body is decoded (app.py:70) before the event header is read. A body nested past the interpreter's recursion limit makes the decoder raise RecursionError, which `silent=True` does not swallow. The catch-all then answers 500 "Processing failed" even when the event header is missing or unsupported (`Webhook.Route`).
- **Timestamp pattern.** The `strptime` pattern is lenient. Fields other than the year may have one digit, the day may be space-padded, and `T`/`Z` may be lower case. The `datetime` constructor then rejects year 0, days past the end of the month, and second 60 or 61. `Timestamp.ParseTimestamp` accepts exactly these texts.
- **Feed order.** The order of records with equal timestamps is left to the database. `Store.Newest` does not fix one; it promises only newest-first order and that no record left out is newer than one returned.

## Model

| member | source | states |
|---|---|---|
| `Text.LastSegmentShape` | app.py:99-100 | the branch taken from `ref` holds no `/`, ends `ref`, follows the last `/` of `ref`, and is all of `ref` exactly when `ref` has no `/` |
| `Text.JoinSplit` | app.py:99 | the pieces of `ref.split('/')` rejoined with `/` give back `ref` |
| `Text.SplitJoin` | app.py:99 | splitting a `/`-join of slash-free pieces gives back the pieces |
| `Text.Split` | app.py:99 | `split` yields at least one piece, none containing the separator, and a single piece exactly when the separator is absent |
| `Text.Natural` | app.py:112 | the decimal spelling of a natural number is a non-empty digit run with no leading zero |
| `Text.DecimalRoundTrip` | app.py:112 | reading back `str(n)` of an integer `number` gives `n` |
| `Text.DecimalInjective` | app.py:112 | distinct pull-request numbers give distinct `request_id` strings |
| `Text.Decimal` | app.py:112 | `str(n)` is in canonical form (no leading zero, no "-0") and starts with a minus sign exactly for a negative `n` |
| `Text.CanonicalDecimalUnique` | app.py:112 | `str(n)` is the only canonical decimal text that reads back as `n` |
| `Json.Lookup` | app.py:96-97 | a dict lookup finds a value exactly when some member has the key, and the value found is the one bound by the last member with that key, as the decoder keeps it |
| `Json.Get` | app.py:92 | `.get` raises AttributeError exactly on a non-dict, gives `None` for an absent key and the bound value otherwise |
| `Json.Index` | app.py:96-97 | a subscript succeeds exactly on a dict holding the key, raising KeyError for a missing key of a dict |
| `Json.IndexKey` | app.py:96-97 | a subscript `x[k]` succeeds exactly when the one-key path exists, and yields its end |
| `Json.IndexPath` | app.py:96-97 | chained subscripts `x[k1][k2]` succeed exactly when the two-key path exists, and yield its end |
| `Json.Str` | app.py:112 | `str()` of a string is the string, and of an integer is a canonical decimal text that reads back as that integer (hence, by `Text.CanonicalDecimalUnique`, exactly `str(n)`) |
| `Signature.Hex` | app.py:47-51 | `hexdigest()` has two lowercase hex characters per digest byte |
| `Signature.HexRoundTrip` | app.py:47-51 | the hex rendering of a digest decodes back to the digest |
| `Signature.UnhexRoundTrip` | app.py:47-51 | every lowercase hex text that decodes is the rendering of what it decodes to |
| `Signature.HexInjective` | app.py:47-51 | distinct digests render as distinct hex strings |
| `Signature.Verify` | app.py:41-55 | no secret means accept; secret without header means 403 "Missing signature"; with both, accept exactly when the header equals `sha256=`+hex HMAC of the raw body, and otherwise 403 "Invalid signature" for an ASCII header or the TypeError for a non-ASCII one |
| `Signature.AcceptedHeaderUnique` | app.py:47-55 | for a given secret and body the expected signature passes, and a header passes exactly when it is that signature |
| `Signature.BodyChangeInvalidates` | app.py:46-55 | a header accepted for one body is refused with 403 for any body whose HMAC differs |
| `Timestamp.Format` | app.py:101 | the zero-padded rendering in the pattern's layout (four-digit year) has twenty characters |
| `Timestamp.ParseTimestamp` | app.py:101 | a parsed timestamp is a valid datetime and the input is one of the texts the pattern admits for it |
| `Timestamp.Lexemes` | app.py:101 | the five short fields read after the year each fit their width and end in their literal (`-`, `T`/`t`, `:`, `:`, `Z`/`z`), only the day is space-padded, and nothing follows the `Z` |
| `Timestamp.ScanSound` | app.py:101 | whatever matches the pattern's shape is the spelling of the fields read from it |
| `Timestamp.ScanSpelled` | app.py:101 | every admissible spelling of field values matches the shape and reads back to those values |
| `Timestamp.ParseSpelled` | app.py:101 | every text the pattern admits for a valid datetime (short fields, space-padded day, lower-case `t`/`z`) parses to it |
| `Timestamp.ParseRejectsInvalid` | app.py:101 | a well-shaped text naming an impossible datetime (February 30th, second 60, year 0) raises |
| `Timestamp.FormatRoundTrip` | app.py:101 | parsing the zero-padded rendering of a valid datetime gives it back |
| `Timestamp.ParseFormatCanonical` | app.py:101 | a parsed twenty-character text with upper-case literals and no space-padded day is exactly the rendering of its value |
| `Timestamp.NotAfterTotalOrder` | app.py:137 | the timestamp order the feed sorts by is total, transitive and antisymmetric |
| `Store.InsertOne` | app.py:103 | `insert_one` appends exactly the given record when the database answers and can store the record; it raises when the database is unreachable, and raises an encoding error for a record with an integer beyond 64 signed bits, a NUL in a dict key, or non-empty lists and dicts nested past the server's configured depth (`maxNesting`) |
| `Store.InsertByTime` | app.py:137 | inserting into a newest-first list keeps it newest first and adds exactly that record |
| `Store.SortNewestFirst` | app.py:137 | sorting by timestamp descending is a permutation that is newest first |
| `Store.Newest` | app.py:136-138 | the read returns min(limit, stored) records, newest first, drawn from the store, and none left out is newer than one returned |
| `Store.NewestKeepsAllWhenFew` | app.py:136-138 | with no more records than the limit the read returns every stored record |
| `Normalize.Strptime` | app.py:101 | `strptime` succeeds exactly on a string the pattern parses, giving a valid datetime |
| `Normalize.HandlePush` | app.py:91-103 | a non-dict payload raises AttributeError, a falsy `head_commit` raises ValueError, and a built record is a PUSH with equal branches and a valid timestamp |
| `Normalize.HandlePushSpec` | app.py:91-103 | `handle_push` builds a record exactly when commit id, author name, string `ref` and parsable commit timestamp are present, and it is the record with those fields and the last segment of `ref` as both branches |
| `Normalize.PullRecordSpec` | app.py:111-127 | a pull-request record is built exactly when number, actor login, head and base refs and the chosen timestamp are usable, with `request_id` = `str(number)` |
| `Normalize.HandlePullRequest` | app.py:105-131 | a non-dict payload raises AttributeError, a falsy `pull_request` raises ValueError, and any built record is a MERGE or PULL_REQUEST with a valid timestamp |
| `Normalize.HandlePullRequestSpec` | app.py:105-131 | a merged close gives the MERGE record from `merged_by`/`merged_at`, opened or reopened gives the PULL_REQUEST record from `user`/`created_at`, each exactly when usable; a close of a non-dict pull request raises; every other action yields no record and no error |
| `Webhook.Payload` | app.py:70 | a body not sent as JSON, rejected by the decoder, or falsy becomes `{}`; a truthy decoded body is used as is; a body too deep to decode raises |
| `Webhook.Commit` | app.py:81-89 | a raising handler gives 500 "Processing failed" with nothing stored; no record gives 200 with nothing stored; a built record gives 200 with it appended when the database answers and can encode it, and 500 with nothing stored otherwise |
| `Webhook.Route` | app.py:69-89 | a body too deep to decode answers 500 "Processing failed" with nothing stored, whatever the event header; otherwise the decoded payload is dispatched; the answer is 200, 400 or 500 and at most one record is appended, only with 200 |
| `Webhook.Dispatch` | app.py:71-89 | once the payload is decoded, a missing event header gives 400 "Missing event type", an unknown kind 400 "Unsupported event type", each with nothing stored; the answer is 200, 400 or 500, at most one record is appended and only with 200, and its timestamp is valid |
| `Webhook.Handle` | app.py:38-89 | without a secret the route runs regardless of headers; with one, a missing header gives 403 with nothing stored, and the route runs exactly when the header is the expected signature; a wrong ASCII header gives 403 "Invalid signature" and a non-ASCII one the framework's 500 page, each with nothing stored; a 403 never stores; the store grows by at most one record and only with 200 |
| `Webhook.GetEvents` | app.py:133-142 | with the database up: 200 with at most ten records, newest first, drawn from the store, none left out newer than one shown; with it down: 500 "Failed to fetch events" |
| `Webhook.RejectionIgnoresPayload` | app.py:41-55 | a rejected delivery's outcome does not depend on its decoded body, and nothing is stored |
| `Webhook.UnsignedPostForbidden` | test_webhook.py:9-11 | with a secret configured, an unsigned post of `{"test": "payload"}` answers 403 |
| `Webhook.PushStored` | app.py:91-103 | an accepted push with usable fields answers 200 and appends exactly the record the payload describes when the driver can encode it, and answers 500 storing nothing when it cannot |
| `Webhook.PushRejected` | app.py:91-103 | an accepted push lacking a usable field answers 500 and stores nothing |
| `Webhook.MergeStored` | app.py:110-118 | an accepted merged close appends the MERGE record when usable and encodable, and otherwise answers 500 storing nothing |
| `Webhook.OpenedStored` | app.py:119-127 | an accepted open or reopen appends the PULL_REQUEST record when usable and encodable, and otherwise answers 500 storing nothing |
| `Webhook.OtherPullActionIgnored` | app.py:128-129 | any other pull-request action, including a close without a truthy `merged`, answers 200 and stores nothing |
| `Webhook.PullWithoutPullRequest` | app.py:105-107 | a pull-request delivery without a truthy `pull_request` (including an empty or undecodable body), or with a body too deep to decode, answers 500 and stores nothing |
| `Webhook.RunAppendOnly` | app.py:103 | over any run of deliveries stored records are never changed or removed, each delivery adds at most one, and every stored timestamp is valid |
| `Webhook.ElevenShowTen` | app.py:136-138 | with eleven stored records the feed shows exactly ten |

## Left out

- Framework plumbing (app.py:1-12, 58-64, 144-145): routing decorators, `render_template` and the home page, `jsonify`, and process start-up. A response is modelled as a status and a reply value.
- Database connection set-up (app.py:18-26). It fails at import time, before any request. Driver failures during a request are modelled by `Store.online`.
- The custom `JSONEncoder` and the serialisation of the feed (app.py:28-36, 139). This includes the `_id` field that `insert_one` adds to a stored document.
- HMAC-SHA256 internals and the UTF-8 encoding of the secret. `Signature.Mac` is an arbitrary function of the secret and the body, so resistance to forgery is not modelled. `Signature.BodyChangeInvalidates` therefore assumes the two bodies' MACs differ.
- The constant-time property of `hmac.compare_digest`. It is modelled as equality, plus its TypeError on non-ASCII text.
- JSON decoding of the body. `Webhook.Request.json` holds its outcome (no JSON, the decoded value, or RecursionError), and the signature is checked against the raw bytes. The recursion limit itself is not modelled, only the outcome. JSON floats, `NaN` and `Infinity` are not modelled; numbers are integers. Lone surrogates in decoded strings (`"\ud800"`), which BSON cannot encode, are not representable.
- BSON's 16 MB document size limit on `insert_one` is not modelled; `Store.Storable` covers integer width, NUL in keys and nesting depth only.
- Store.Storable: the server's depth check is modelled as one level per non-empty list or dict, the stored document being the first, against the configured `maxNesting`. The server's own default for that bound and its exact counting convention are not fixed by the model.
- Store.InsertOne: assumes pymongo 4 and MongoDB 5.0 or later, which accept nested keys containing `.` or starting with `$`; pymongo 3 refuses such keys, and the contract does not promise that refusal.
- Year width of the rendering: `Timestamp.Format` always writes a four-digit year. Python's `strftime('%Y…')` may write a year below 1000 with fewer digits, depending on the C library; app.py never formats a timestamp this way.
- Webhook.GetEvents: its 200 assumes the feed can be serialised. app.py:36 installs the custom encoder through `app.json_encoder`, which Flask 2.3 and later ignore. On those versions `jsonify` raises on the stored `_id` (an ObjectId) inside the route's `try`, so the route answers 500 "Failed to fetch events". The model follows the encoder's intent.
- Reading headers: the case-insensitive lookup and the decoding of header bytes to text. A header is modelled as absent or as its text.
- Reading the environment: `WEBHOOK_SECRET` is an `Option<string>`. Undecodable environment bytes, which would make `.encode()` raise, are not modelled.
- Timestamp.ParseTimestamp: non-ASCII decimal digits, which the pattern's `\d` also matches, are rejected rather than parsed.
- Json.Str: the repr of a string keeps every character above U+00FF verbatim, where Python escapes the non-printable ones. A dict is rendered from its members in order. Python 3.11's limit on converting very long integers to text is not modelled.
- Repeated keys in one decoded object: `Json.Lookup` reads the last value, as the decoder does, but `Json.Str` renders and `Store.Storable` checks every member, where the decoded dict keeps one entry per key.
- Logging (app.py:63, 88, 141).
- Concurrency between deliveries. A run of deliveries is modelled as a sequence (`Webhook.Run`).

=== FILE: exceptions.dfy ===
/** The Python exceptions the webhook route can meet while it decodes a delivery,
    reads the payload and stores the record. Every one of them is caught by the
    route's catch-all and answered alike; they are told apart only so that the
    contracts can say which step failed. */
module Exceptions {
  import opened Wrappers

  datatype Error =
    | KeyError(key: string)
    | TypeError(detail: string)
    | AttributeError(name: string)
    | ValueError(detail: string)
    | RecursionError          // the JSON decoder on a body nested too deeply
    | ServerUnavailable       // the driver cannot reach the database
    | EncodeError             // the document cannot be encoded as BSON or nests too deeply

  /** A computation that yields a `T` or raises. */
  type Raises<T> = Result<T, Error>
}

=== FILE: json.dfy ===
/** The decoded JSON payload as the handlers see it (the Python objects the JSON
    decoder yields), Python truthiness, dictionary access with its exceptions, and
    `str()` of a decoded value. */
module Json {
  import opened Wrappers
  import opened Text
  import opened Exceptions

  /** A decoded JSON value. Numbers are integers; an object keeps its members in
      the order the text lists them, repeated keys included (the decoder keeps
      the last value of a repeated key, see `Lookup`). */
  datatype Json =
    | JNull
    | JBool(b: bool)
    | JInt(i: int)
    | JString(s: string)
    | JArray(items: seq<Json>)
    | JObject(members: seq<Member>)

  datatype Member = Member(key: string, value: Json)

  /** Python truthiness: `None`, `False`, `0`, `""`, `[]` and `{}` are false. */
  predicate Truthy(j: Json) {
    match j
    case JNull => false
    case JBool(b) => b
    case JInt(i) => i != 0
    case JString(s) => s != ""
    case JArray(items) => items != []
    case JObject(members) => members != []
  }

  /** The value the decoded dict binds to `key`, if any: the last member with
      that key, since a later member overwrites an earlier one. */
  function Lookup(members: seq<Member>, key: string): (r: Option<Json>)
    ensures r.None? <==> forall i :: 0 <= i < |members| ==> members[i].key != key
    ensures r.Some? ==> exists i :: 0 <= i < |members| && members[i] == Member(key, r.value) &&
                                    forall j :: i < j < |members| ==> members[j].key != key
  {
    if members == [] then None
    else
      var last := members[|members| - 1];
      if last.key == key then Some(last.value)
      else
        var front := members[..|members| - 1];
        var r := Lookup(front, key);
        assert members == front + [last];
        if r.Some? then LaterMemberKeepsBinding(front, last, key, r.value); r else r
  }

  /** A member with another key, appended, leaves the last binding of `key` in place. */
  lemma LaterMemberKeepsBinding(front: seq<Member>, last: Member, key: string, v: Json)
    requires last.key != key
    requires exists i :: 0 <= i < |front| && front[i] == Member(key, v) &&
                         forall j :: i < j < |front| ==> front[j].key != key
    ensures var ms := front + [last];
            exists i :: 0 <= i < |ms| && ms[i] == Member(key, v) && forall j :: i < j < |ms| ==> ms[j].key != key
  {
    var i :| 0 <= i < |front| && front[i] == Member(key, v) && forall j :: i < j < |front| ==> front[j].key != key;
    var ms := front + [last];
    assert ms[i] == Member(key, v);
    forall j | i < j < |ms|
      ensures ms[j].key != key
    {
      if j < |front| {
        assert ms[j] == front[j];
      }
    }
  }

  /** `obj.get(key)`: the bound value or `None`; only a dict has `get`. */
  function Get(obj: Json, key: string): (r: Raises<Json>)
    ensures r.Failure? <==> !obj.JObject?
    ensures obj.JObject? && Lookup(obj.members, key).None? ==> r == Success(JNull)
    ensures obj.JObject? && Lookup(obj.members, key).Some? ==> r == Success(Lookup(obj.members, key).value)
  {
    match obj
    case JObject(members) =>
      (match Lookup(members, key)
       case Some(v) => Success(v)
       case None => Success(JNull))
    case _ => Failure(AttributeError("get"))
  }

  /** `obj[key]`: a missing key raises KeyError, subscripting anything but a dict
      with a string raises TypeError. */
  function Index(obj: Json, key: string): (r: Raises<Json>)
    ensures r.Success? <==> obj.JObject? && Lookup(obj.members, key).Some?
    ensures r.Success? ==> r.value == Lookup(obj.members, key).value
    ensures obj.JObject? && r.Failure? ==> r.error == KeyError(key)
  {
    match obj
    case JObject(members) =>
      (match Lookup(members, key)
       case Some(v) => Success(v)
       case None => Failure(KeyError(key)))
    case _ => Failure(TypeError("not subscriptable by a string"))
  }

  /** The value reached from `j` by following `keys` through nested dicts. */
  function Path(j: Json, keys: seq<string>): Option<Json> {
    if keys == [] then Some(j)
    else
      match j
      case JObject(members) =>
        (match Lookup(members, keys[0])
         case Some(v) => Path(v, keys[1..])
         case None => None)
      case _ => None
  }

  /** Following a path one key at a time: the first step is a subscript, and the
      rest of the path continues from the value it yields. */
  lemma PathStep(j: Json, k: string, ks: seq<string>)
    ensures Path(j, [k] + ks) == (if Index(j, k).Success? then Path(Index(j, k).value, ks) else None)
  {
    assert ([k] + ks)[1..] == ks;
  }

  /** One subscript succeeds exactly when the one-key path exists, and yields
      the value at its end. */
  lemma IndexKey(j: Json, k: string)
    ensures Index(j, k).Success? <==> Path(j, [k]).Some?
    ensures Index(j, k).Success? ==> Index(j, k).value == Path(j, [k]).value
  {
    PathStep(j, k, []);
    assert [k] + [] == [k];
  }

  /** Two chained subscripts succeed exactly when the two-key path exists, and
      yield the value at its end. */
  lemma IndexPath(j: Json, k1: string, k2: string)
    ensures Index(j, k1).Success? <==> Path(j, [k1]).Some?
    ensures Index(j, k1).Success? ==> Index(j, k1).value == Path(j, [k1]).value
    ensures (Index(j, k1).Success? && Index(Index(j, k1).value, k2).Success?) <==> Path(j, [k1, k2]).Some?
    ensures Path(j, [k1, k2]).Some? ==> Index(Index(j, k1).value, k2).value == Path(j, [k1, k2]).value
  {
    IndexKey(j, k1);
    PathStep(j, k1, [k2]);
    assert [k1] + [k2] == [k1, k2];
    if Index(j, k1).Success? {
      IndexKey(Index(j, k1).value, k2);
    }
  }

  /** `str(j)`: a string is itself, everything else is its repr. */
  function Str(j: Json): (r: string)
    ensures j.JString? ==> r == j.s
    ensures j.JInt? ==> CanonicalDecimal(r) && ParseDecimal(r) == Some(j.i)
  {
    match j
    case JString(s) => s
    case JInt(i) => DecimalRoundTrip(i); Repr(j)
    case _ => Repr(j)
  }

  /** `repr(j)` of a decoded value. */
  function Repr(j: Json): string
    decreases j
  {
    match j
    case JNull => "None"
    case JBool(b) => if b then "True" else "False"
    case JInt(i) => Decimal(i)
    case JString(s) => StrRepr(s)
    case JArray(items) =>
      "[" + CommaJoin(seq(|items|, k requires 0 <= k < |items| => Repr(items[k]))) + "]"
    case JObject(members) =>
      "{" + CommaJoin(seq(|members|, k requires 0 <= k < |members| =>
                            StrRepr(members[k].key) + ": " + Repr(members[k].value))) + "}"
  }

  function CommaJoin(parts: seq<string>): string {
    if parts == [] then "" else if |parts| == 1 then parts[0] else parts[0] + ", " + CommaJoin(parts[1..])
  }

  /** `repr(s)`: single quotes unless `s` holds a single quote and no double quote. */
  function StrRepr(s: string): string {
    var q := if '\'' in s && '"' !in s then '"' else '\'';
    [q] + EscapeAll(s, q) + [q]
  }

  function EscapeAll(s: string, q: char): string {
    if s == [] then "" else Escape(s[0], q) + EscapeAll(s[1..], q)
  }

  function Escape(c: char, q: char): string {
    if c == q || c == '\\' then ['\\', c]
    else if c == '\t' then "\\t"
    else if c == '\n' then "\\n"
    else if c == '\r' then "\\r"
    else if c < ' ' || (0x7f <= c as int <= 0xa0) || c as int == 0xad then
      "\\x" + [HexAlphabet[c as int / 16], HexAlphabet[c as int % 16]]
    else [c]
  }
}

=== FILE: normalize.dfy ===
/** The two event normalizers (app.py `handle_push`, `handle_pull_request`): each
    maps a decoded payload to the record it stores, to no record, or to the
    exception it raises before storing anything. */
module Normalize {
  import opened Wrappers
  import opened Text
  import opened Json
  import opened Exceptions
  import opened Timestamp
  import opened Store

  /** `datetime.strptime(j, '%Y-%m-%dT%H:%M:%SZ')`: TypeError for a non-string,
      ValueError for a string that does not parse. */
  function Strptime(j: Json): (r: Raises<DateTime>)
    ensures r.Success? <==> j.JString? && ParseTimestamp(j.s).Some?
    ensures r.Success? ==> Valid(r.value) && Some(r.value) == ParseTimestamp(j.s)
  {
    if !j.JString? then Failure(TypeError("strptime() argument 1 must be str"))
    else
      match ParseTimestamp(j.s)
      case Some(t) => Success(t)
      case None => Failure(ValueError("time data does not match format"))
  }

  /** `j.split('/')[-1]`: only a string has `split`. */
  function RefBranch(j: Json): (r: Raises<string>)
    ensures r.Success? <==> j.JString?
  {
    if j.JString? then Success(LastSegment(j.s)) else Failure(AttributeError("split"))
  }

  /** `handle_push`: the head commit's id, author name and timestamp, and the last
      segment of `ref` as both branches. */
  function HandlePush(data: Json): (r: Raises<Record>)
    ensures !data.JObject? ==> r == Failure(AttributeError("get"))
    ensures data.JObject? && !Truthy(Get(data, "head_commit").value) ==>
              r == Failure(ValueError("Missing head_commit in push event"))
    ensures r.Success? ==> r.value.action == Push && r.value.fromBranch == r.value.toBranch
    ensures r.Success? ==> Valid(r.value.timestamp)
  {
    var commit :- Get(data, "head_commit");
    if !Truthy(commit) then Failure(ValueError("Missing head_commit in push event"))
    else
      var id :- Index(commit, "id");
      var author :- Index(commit, "author");
      var name :- Index(author, "name");
      var ref :- Index(data, "ref");
      var branch :- RefBranch(ref);
      var stamp :- Index(commit, "timestamp");
      var when :- Strptime(stamp);
      Success(Record(id, name, Push, JString(branch), JString(branch), when))
  }

  /** The datetime a string at the end of `keys` spells, if it is one. */
  function StampAt(j: Json, keys: seq<string>): Option<DateTime> {
    match Path(j, keys)
    case Some(JString(s)) => ParseTimestamp(s)
    case _ => None
  }

  /** Every field a push record is built from is present and usable. */
  predicate PushReady(data: Json) {
    && Path(data, ["head_commit", "id"]).Some?
    && Path(data, ["head_commit", "author", "name"]).Some?
    && Path(data, ["ref"]).Some? && Path(data, ["ref"]).value.JString?
    && StampAt(data, ["head_commit", "timestamp"]).Some?
  }

  /** The record a push payload describes. */
  function PushSpec(data: Json): Record
    requires PushReady(data)
  {
    var branch := JString(LastSegment(Path(data, ["ref"]).value.s));
    Record(Path(data, ["head_commit", "id"]).value, Path(data, ["head_commit", "author", "name"]).value,
           Push, branch, branch, StampAt(data, ["head_commit", "timestamp"]).value)
  }

  /** The push fields, read as the chained subscripts `handle_push` performs. */
  lemma PushPaths(data: Json)
    requires Index(data, "head_commit").Success?
    ensures var c := Index(data, "head_commit").value;
            && (Path(data, ["head_commit", "id"]).Some? <==> Index(c, "id").Success?)
            && (Index(c, "id").Success? ==> Path(data, ["head_commit", "id"]).value == Index(c, "id").value)
            && (Path(data, ["head_commit", "author", "name"]).Some? <==>
                  Index(c, "author").Success? && Index(Index(c, "author").value, "name").Success?)
            && (Path(data, ["head_commit", "author", "name"]).Some? ==>
                  Path(data, ["head_commit", "author", "name"]).value == Index(Index(c, "author").value, "name").value)
            && (Path(data, ["head_commit", "timestamp"]).Some? <==> Index(c, "timestamp").Success?)
            && (Index(c, "timestamp").Success? ==>
                  Path(data, ["head_commit", "timestamp"]).value == Index(c, "timestamp").value)
            && (Path(data, ["ref"]).Some? <==> Index(data, "ref").Success?)
            && (Index(data, "ref").Success? ==> Path(data, ["ref"]).value == Index(data, "ref").value)
  {
    var c := Index(data, "head_commit").value;
    PathStep(data, "head_commit", ["id"]);
    PathStep(data, "head_commit", ["author", "name"]);
    PathStep(data, "head_commit", ["timestamp"]);
    assert ["head_commit"] + ["id"] == ["head_commit", "id"];
    assert ["head_commit"] + ["author", "name"] == ["head_commit", "author", "name"];
    assert ["head_commit"] + ["timestamp"] == ["head_commit", "timestamp"];
    IndexKey(c, "id");
    IndexPath(c, "author", "name");
    IndexKey(c, "timestamp");
    IndexKey(data, "ref");
  }

  /** `handle_push` stores a record exactly when every field it reads is present
      and usable, and that record is the one the payload describes. */
  lemma HandlePushSpec(data: Json)
    ensures HandlePush(data).Success? <==> PushReady(data)
    ensures HandlePush(data).Success? ==> HandlePush(data).value == PushSpec(data)
  {
    if HandlePush(data).Success? {
      PushBuilt(data);
    } else if PushReady(data) {
      PushReadyBuilds(data);
    }
  }

  /** A push record, once built, was built from usable fields and is the one the
      payload describes. */
  lemma PushBuilt(data: Json)
    requires HandlePush(data).Success?
    ensures PushReady(data) && HandlePush(data).value == PushSpec(data)
  {
    assert Index(data, "head_commit").Success?;
    PushPaths(data);
    var commit := Index(data, "head_commit").value;
    assert Index(commit, "id").Success? && Index(commit, "timestamp").Success? && Index(data, "ref").Success?;
  }

  /** Usable fields always yield a record. */
  lemma PushReadyBuilds(data: Json)
    requires PushReady(data)
    ensures HandlePush(data).Success?
  {
    PathStep(data, "head_commit", ["id"]);
    assert ["head_commit"] + ["id"] == ["head_commit", "id"];
    var commit := Index(data, "head_commit").value;
    PushPaths(data);
    assert Truthy(commit);
  }

  /** Wraps a built record as "one record to store". */
  function Built(r: Raises<Record>): (o: Raises<Option<Record>>)
    ensures o.Success? <==> r.Success?
    ensures r.Success? ==> o.value == Some(r.value)
  {
    match r
    case Success(rec) => Success(Some(rec))
    case Failure(e) => Failure(e)
  }

  /** The record body shared by merges and opened pull requests: the number as a
      string, the actor's login, head and base refs, and the chosen timestamp. */
  function PullRecord(pr: Json, kind: Action, actorKey: string, stampKey: string): (r: Raises<Record>)
    ensures r.Success? ==> r.value.action == kind && Valid(r.value.timestamp)
  {
    var number :- Index(pr, "number");
    var actor :- Index(pr, actorKey);
    var login :- Index(actor, "login");
    var head :- Index(pr, "head");
    var from :- Index(head, "ref");
    var base :- Index(pr, "base");
    var to :- Index(base, "ref");
    var stamp :- Index(pr, stampKey);
    var when :- Strptime(stamp);
    Success(Record(JString(Str(number)), login, kind, from, to, when))
  }

  /** `handle_pull_request`: a merge is recorded from `merged_by`/`merged_at`, an
      opened or reopened request from `user`/`created_at`; every other action is
      ignored without error. */
  function HandlePullRequest(data: Json): (r: Raises<Option<Record>>)
    ensures !data.JObject? ==> r == Failure(AttributeError("get"))
    ensures data.JObject? && !Truthy(Get(data, "pull_request").value) ==>
              r == Failure(ValueError("Missing pull_request data"))
    ensures r.Success? && r.value.Some? ==> r.value.value.action in {Merge, PullRequest}
    ensures r.Success? && r.value.Some? ==> Valid(r.value.value.timestamp)
  {
    var pr :- Get(data, "pull_request");
    if !Truthy(pr) then Failure(ValueError("Missing pull_request data"))
    else
      var action := Get(data, "action").value;
      if action == JString("closed") then
        var merged :- Get(pr, "merged");
        if Truthy(merged) then Built(PullRecord(pr, Merge, "merged_by", "merged_at"))
        else Success(None)
      else if action == JString("opened") || action == JString("reopened") then
        Built(PullRecord(pr, PullRequest, "user", "created_at"))
      else Success(None)
  }

  /** Every field a pull-request record is built from is present and usable. */
  predicate PullReady(pr: Json, actorKey: string, stampKey: string) {
    && Path(pr, ["number"]).Some?
    && Path(pr, [actorKey, "login"]).Some?
    && Path(pr, ["head", "ref"]).Some?
    && Path(pr, ["base", "ref"]).Some?
    && StampAt(pr, [stampKey]).Some?
  }

  /** The record a pull request describes for the given action kind. */
  function PullSpec(pr: Json, kind: Action, actorKey: string, stampKey: string): Record
    requires PullReady(pr, actorKey, stampKey)
  {
    Record(JString(Str(Path(pr, ["number"]).value)), Path(pr, [actorKey, "login"]).value, kind,
           Path(pr, ["head", "ref"]).value, Path(pr, ["base", "ref"]).value, StampAt(pr, [stampKey]).value)
  }

  lemma PullRecordSpec(pr: Json, kind: Action, actorKey: string, stampKey: string)
    ensures PullRecord(pr, kind, actorKey, stampKey).Success? <==> PullReady(pr, actorKey, stampKey)
    ensures PullRecord(pr, kind, actorKey, stampKey).Success? ==>
              PullRecord(pr, kind, actorKey, stampKey).value == PullSpec(pr, kind, actorKey, stampKey)
  {
    IndexKey(pr, "number");
    IndexPath(pr, actorKey, "login");
    IndexPath(pr, "head", "ref");
    IndexPath(pr, "base", "ref");
    IndexKey(pr, stampKey);
  }

  /** `data['action'] == name`, read the way `data.get('action')` reads it. */
  predicate ActionIs(data: Json, name: string)
    requires data.JObject?
  {
    Get(data, "action").value == JString(name)
  }

  /** What `handle_pull_request` does with a dict payload whose pull request is
      truthy: a merged close is recorded as a merge, an open or reopen as a pull
      request, each exactly when its fields are usable; a close of a pull request
      that is not a dict raises; every other case stores nothing and succeeds. */
  lemma HandlePullRequestSpec(data: Json)
    requires data.JObject? && Truthy(Get(data, "pull_request").value)
    ensures var pr := Get(data, "pull_request").value;
            var r := HandlePullRequest(data);
            && (ActionIs(data, "closed") && !pr.JObject? ==> r == Failure(AttributeError("get")))
            && (ActionIs(data, "closed") && pr.JObject? && Truthy(Get(pr, "merged").value) ==>
                  (r.Success? <==> PullReady(pr, "merged_by", "merged_at"))
                  && (r.Success? ==> r.value == Some(PullSpec(pr, Merge, "merged_by", "merged_at"))))
            && (ActionIs(data, "opened") || ActionIs(data, "reopened") ==>
                  (r.Success? <==> PullReady(pr, "user", "created_at"))
                  && (r.Success? ==> r.value == Some(PullSpec(pr, PullRequest, "user", "created_at"))))
            && (!ActionIs(data, "opened") && !ActionIs(data, "reopened") &&
                (ActionIs(data, "closed") ==> pr.JObject? && !Truthy(Get(pr, "merged").value)) ==>
                  r == Success(None))
  {
    var pr := Get(data, "pull_request").value;
    PullRecordSpec(pr, Merge, "merged_by", "merged_at");
    PullRecordSpec(pr, PullRequest, "user", "created_at");
  }
}

=== FILE: signature.dfy ===
/** The request-signature gate placed in front of the webhook route
    (app.py `verify_signature`): HMAC-SHA256 of the raw body under the shared
    secret, rendered as `sha256=` + lowercase hex, compared with the
    `X-Hub-Signature-256` header. */
module Signature {
  import opened Wrappers
  import opened Text

  type Byte = b: int | 0 <= b < 256

  /** HMAC-SHA256 (RFC 2104 over FIPS 180-4 SHA-256) keyed by the UTF-8 bytes of
      the secret; the model treats it as an arbitrary function. */
  type Mac = (string, seq<Byte>) -> seq<Byte>

  /** `hexdigest()`: two lowercase hex characters per byte, high nibble first. */
  function Hex(bytes: seq<Byte>): (r: string)
    ensures |r| == 2 * |bytes|
    ensures forall i :: 0 <= i < |r| ==> r[i] in HexAlphabet
  {
    if bytes == [] then ""
    else [HexAlphabet[bytes[0] / 16], HexAlphabet[bytes[0] % 16]] + Hex(bytes[1..])
  }

  function NibbleValue(c: char): (r: Option<int>)
    ensures r.Some? ==> 0 <= r.value < 16
  {
    if '0' <= c <= '9' then Some(c as int - '0' as int)
    else if 'a' <= c <= 'f' then Some(c as int - 'a' as int + 10)
    else None
  }

  /** The inverse of `Hex`: pairs of lowercase hex characters back to bytes. */
  function Unhex(s: string): Option<seq<Byte>> {
    if s == [] then Some([])
    else if |s| == 1 then None
    else
      match (NibbleValue(s[0]), NibbleValue(s[1]), Unhex(s[2..]))
      case (Some(hi), Some(lo), Some(rest)) => Some([Pack(hi, lo)] + rest)
      case _ => None
  }

  function Pack(hi: int, lo: int): (b: Byte)
    requires 0 <= hi < 16 && 0 <= lo < 16
    ensures b / 16 == hi && b % 16 == lo
  {
    hi * 16 + lo
  }

  lemma NibbleOfHex(n: int)
    requires 0 <= n < 16
    ensures NibbleValue(HexAlphabet[n]) == Some(n)
  {
  }

  lemma ByteNibbles(b: Byte)
    ensures 0 <= b / 16 < 16 && 0 <= b % 16 < 16
    ensures (b / 16) * 16 + b % 16 == b
  {
  }

  lemma {:induction false} HexRoundTrip(bytes: seq<Byte>)
    ensures Unhex(Hex(bytes)) == Some(bytes)
  {
    if bytes != [] {
      var b := bytes[0];
      ByteNibbles(b);
      NibbleOfHex(b / 16);
      NibbleOfHex(b % 16);
      HexRoundTrip(bytes[1..]);
      var h := Hex(bytes);
      assert h[0] == HexAlphabet[b / 16] && h[1] == HexAlphabet[b % 16];
      assert h[2..] == Hex(bytes[1..]);
      assert Pack(b / 16, b % 16) == b;
      assert [b] + bytes[1..] == bytes;
    }
  }

  lemma {:induction false} UnhexRoundTrip(s: string, bytes: seq<Byte>)
    requires Unhex(s) == Some(bytes)
    ensures Hex(bytes) == s
  {
    if s != [] {
      var hi := NibbleValue(s[0]).value;
      var lo := NibbleValue(s[1]).value;
      var rest := Unhex(s[2..]).value;
      UnhexRoundTrip(s[2..], rest);
      var b := Pack(hi, lo);
      assert bytes == [b] + rest;
      assert bytes[0] == b && bytes[1..] == rest;
      NibbleChar(s[0]);
      NibbleChar(s[1]);
      calc {
        Hex(bytes);
        [HexAlphabet[b / 16], HexAlphabet[b % 16]] + Hex(rest);
        [s[0], s[1]] + s[2..];
        s;
      }
    }
  }

  lemma NibbleChar(c: char)
    requires NibbleValue(c).Some?
    ensures HexAlphabet[NibbleValue(c).value] == c
  {
  }

  /** Distinct digests render as distinct hex strings. */
  lemma HexInjective(a: seq<Byte>, b: seq<Byte>)
    requires Hex(a) == Hex(b)
    ensures a == b
  {
    HexRoundTrip(a);
    HexRoundTrip(b);
  }

  const Scheme: string := "sha256="

  /** The only header value the gate accepts for this secret and body. */
  function Expected(mac: Mac, secret: string, body: seq<Byte>): string {
    Scheme + Hex(mac(secret, body))
  }

  /** `if WEBHOOK_SECRET:`: verification is on only for a non-empty secret. */
  predicate Enabled(secret: Option<string>) {
    secret.Some? && secret.value != ""
  }

  /** A header value that is present and non-empty. */
  predicate Present(header: Option<string>) {
    header.Some? && header.value != ""
  }

  predicate IsAscii(s: string) {
    forall i :: 0 <= i < |s| ==> s[i] as int < 128
  }

  /** Accept runs the route; Reject answers 403 with the reason; Crash is the
      TypeError `hmac.compare_digest` raises for a non-ASCII str, which escapes the
      route and becomes the framework's 500 page. */
  datatype Verdict = Accept | Reject(reason: string) | Crash

  function Verify(secret: Option<string>, mac: Mac, header: Option<string>, body: seq<Byte>): (v: Verdict)
    ensures !Enabled(secret) ==> v == Accept
    ensures Enabled(secret) && !Present(header) ==> v == Reject("Missing signature")
    ensures Enabled(secret) && Present(header) ==>
              (v == Accept <==> header.value == Expected(mac, secret.value, body))
    ensures Enabled(secret) && Present(header) && header.value != Expected(mac, secret.value, body) ==>
              (v == Crash <==> !IsAscii(header.value))
    ensures Enabled(secret) && Present(header) && IsAscii(header.value) &&
            header.value != Expected(mac, secret.value, body) ==>
              v == Reject("Invalid signature")
  {
    if !Enabled(secret) then Accept
    else if !Present(header) then Reject("Missing signature")
    else
      var expected := Expected(mac, secret.value, body);
      ExpectedIsAscii(mac, secret.value, body);
      if !IsAscii(header.value) then Crash
      else if header.value == expected then Accept
      else Reject("Invalid signature")
  }

  lemma ExpectedIsAscii(mac: Mac, secret: string, body: seq<Byte>)
    ensures IsAscii(Expected(mac, secret, body))
  {
    var e := Expected(mac, secret, body);
    forall i | 0 <= i < |e|
      ensures e[i] as int < 128
    {
      if i >= |Scheme| {
        assert e[i] == Hex(mac(secret, body))[i - |Scheme|];
      }
    }
  }

  /** Exactly one header value passes the gate for a given secret and body: the
      expected signature passes, and any header that passes is it. */
  lemma AcceptedHeaderUnique(secret: string, mac: Mac, header: string, body: seq<Byte>)
    requires secret != ""
    ensures Verify(Some(secret), mac, Some(Expected(mac, secret, body)), body) == Accept
    ensures Verify(Some(secret), mac, Some(header), body) == Accept <==> header == Expected(mac, secret, body)
  {
    ExpectedIsAscii(mac, secret, body);
    assert Expected(mac, secret, body)[0] == 's';
  }

  /** A header accepted for one body is refused for any body whose MAC differs:
      changing the body invalidates a signature unless the MAC collides. */
  lemma BodyChangeInvalidates(secret: string, mac: Mac, header: string, b1: seq<Byte>, b2: seq<Byte>)
    requires secret != ""
    requires Verify(Some(secret), mac, Some(header), b1) == Accept
    requires mac(secret, b1) != mac(secret, b2)
    ensures Verify(Some(secret), mac, Some(header), b2) == Reject("Invalid signature")
  {
    if header == Expected(mac, secret, b2) {
      assert Scheme + Hex(mac(secret, b1)) == Scheme + Hex(mac(secret, b2));
      assert Hex(mac(secret, b1)) == (Scheme + Hex(mac(secret, b1)))[|Scheme|..];
      HexInjective(mac(secret, b1), mac(secret, b2));
    }
    ExpectedIsAscii(mac, secret, b1);
  }
}

=== FILE: store.dfy ===
/** The activity record the handlers build and the document collection they append
    it to, with the newest-first bounded read behind `/api/events`. */
module Store {
  import opened Wrappers
  import opened Json
  import opened Exceptions
  import opened Timestamp

  /** The normalized action kinds, stored as the texts "PUSH", "MERGE" and
      "PULL_REQUEST"; no other value is ever stored. */
  datatype Action = Push | Merge | PullRequest

  /** One stored document. The fields copied straight from the payload keep
      whatever JSON value the payload holds there. */
  datatype Record = Record(requestId: Json, author: Json, action: Action,
                           fromBranch: Json, toBranch: Json, timestamp: DateTime)

  /** The collection: its documents in insertion order, whether the database
      answers (when it does not, every driver call raises), and the nesting depth
      the server accepts in a stored document. The depth bound is a setting of
      the deployment: it counts the stored document as the first level. */
  datatype Store = Store(records: seq<Record>, online: bool, maxNesting: nat)

  /** The range of a BSON 64-bit integer, the widest the driver encodes. */
  const MinInt64: int := -0x8000_0000_0000_0000
  const MaxInt64: int := 0x7fff_ffff_ffff_ffff

  /** Whether a value copied from the payload can be stored with `levels` levels
      of nesting left: every integer in it fits in 64 signed bits (a wider one
      raises OverflowError), no dict key in it holds a NUL character (such a key
      raises InvalidDocument), and each non-empty list or dict inside it takes
      one level (nesting past the server's bound is refused); an empty list or
      dict takes none. */
  predicate Encodable(j: Json, levels: int)
    decreases j
  {
    match j
    case JInt(i) => MinInt64 <= i <= MaxInt64
    case JArray(items) =>
      items == [] || (levels >= 1 && forall k :: 0 <= k < |items| ==> Encodable(items[k], levels - 1))
    case JObject(members) =>
      members == [] ||
      (levels >= 1 &&
       forall k :: 0 <= k < |members| ==> '\0' !in members[k].key && Encodable(members[k].value, levels - 1))
    case _ => true
  }

  /** Whether the driver can encode the whole record and a server accepting
      `maxNesting` levels stores it: each field sits one level inside the stored
      document. */
  predicate Storable(rec: Record, maxNesting: nat) {
    var room := maxNesting - 1;
    Encodable(rec.requestId, room) && Encodable(rec.author, room) &&
    Encodable(rec.fromBranch, room) && Encodable(rec.toBranch, room)
  }

  /** `collection.insert_one(record)`: appends the record, or raises when the
      database cannot be reached or the record cannot be encoded or is nested
      too deeply. */
  function InsertOne(st: Store, rec: Record): (r: Raises<Store>)
    ensures r.Success? <==> st.online && Storable(rec, st.maxNesting)
    ensures r.Success? ==> r.value == st.(records := st.records + [rec])
    ensures !st.online ==> r == Failure(ServerUnavailable)
    ensures st.online && !Storable(rec, st.maxNesting) ==> r == Failure(EncodeError)
  {
    if !st.online then Failure(ServerUnavailable)
    else if !Storable(rec, st.maxNesting) then Failure(EncodeError)
    else Success(st.(records := st.records + [rec]))
  }

  function Min(a: int, b: int): int {
    if a <= b then a else b
  }

  /** The page size of the event feed. */
  const PageSize: nat := 10

  predicate NewestFirst(s: seq<Record>) {
    forall i, j :: 0 <= i < j < |s| ==> NotAfter(s[j].timestamp, s[i].timestamp)
  }

  function InsertByTime(rec: Record, s: seq<Record>): (r: seq<Record>)
    requires NewestFirst(s)
    ensures NewestFirst(r)
    ensures multiset(r) == multiset(s) + multiset{rec}
  {
    if s == [] then [rec]
    else if NotAfter(s[0].timestamp, rec.timestamp) then
      InsertFront(rec, s);
      [rec] + s
    else
      var tail := InsertByTime(rec, s[1..]);
      assert s == [s[0]] + s[1..];
      NotAfterTotalOrder(s[0].timestamp, rec.timestamp, rec.timestamp);
      BelowHead(s[0], tail, s[1..], rec);
      [s[0]] + tail
  }

  lemma InsertFront(rec: Record, s: seq<Record>)
    requires NewestFirst(s) && s != [] && NotAfter(s[0].timestamp, rec.timestamp)
    ensures NewestFirst([rec] + s)
  {
    var r := [rec] + s;
    forall i, j | 0 <= i < j < |r|
      ensures NotAfter(r[j].timestamp, r[i].timestamp)
    {
      if i == 0 {
        NotAfterTotalOrder(s[j - 1].timestamp, s[0].timestamp, rec.timestamp);
      }
    }
  }

  /** Putting `head` in front of a sorted permutation of `rest` plus `rec` keeps
      it sorted when `head` is newer than all of them. */
  lemma BelowHead(head: Record, tail: seq<Record>, rest: seq<Record>, rec: Record)
    requires NewestFirst(tail) && NewestFirst([head] + rest)
    requires multiset(tail) == multiset(rest) + multiset{rec}
    requires NotAfter(rec.timestamp, head.timestamp)
    ensures NewestFirst([head] + tail)
  {
    var r := [head] + tail;
    forall i, j | 0 <= i < j < |r|
      ensures NotAfter(r[j].timestamp, r[i].timestamp)
    {
      if i == 0 {
        var x := tail[j - 1];
        assert r[0] == head && r[j] == x;
        assert x in multiset(tail);
        if x != rec {
          assert x in multiset(rest);
          var k :| 0 <= k < |rest| && rest[k] == x;
          var hr := [head] + rest;
          assert hr[0] == head && hr[k + 1] == x;
          assert NotAfter(hr[k + 1].timestamp, hr[0].timestamp);
        }
      } else {
        assert r[i] == tail[i - 1] && r[j] == tail[j - 1];
      }
    }
  }

  /** The records ordered newest first. */
  function SortNewestFirst(s: seq<Record>): (r: seq<Record>)
    ensures NewestFirst(r)
    ensures multiset(r) == multiset(s)
  {
    if s == [] then []
    else
      assert s == [s[0]] + s[1..];
      InsertByTime(s[0], SortNewestFirst(s[1..]))
  }

  /** `collection.find().sort("timestamp", -1).limit(limit)`: at most `limit`
      stored records, newest first, and none left out is newer than one kept. The
      order among equal timestamps is the database's choice and is not promised. */
  function Newest(records: seq<Record>, limit: nat): (r: seq<Record>)
    ensures |r| == Min(limit, |records|)
    ensures NewestFirst(r)
    ensures multiset(r) <= multiset(records)
    ensures forall x, y :: x in r && y in multiset(records) - multiset(r) ==> NotAfter(y.timestamp, x.timestamp)
  {
    var sorted := SortNewestFirst(records);
    var k := Min(limit, |records|);
    PrefixIsNewest(sorted, k);
    sorted[..k]
  }

  lemma PrefixIsNewest(sorted: seq<Record>, k: nat)
    requires NewestFirst(sorted) && k <= |sorted|
    ensures NewestFirst(sorted[..k])
    ensures multiset(sorted[..k]) <= multiset(sorted)
    ensures forall x, y :: x in sorted[..k] && y in multiset(sorted) - multiset(sorted[..k]) ==>
                           NotAfter(y.timestamp, x.timestamp)
  {
    var p, q := sorted[..k], sorted[k..];
    forall i, j | 0 <= i < j < |p|
      ensures NotAfter(p[j].timestamp, p[i].timestamp)
    {
      SortedPair(sorted, i, j);
    }
    SplitRemainder(sorted, k);
    forall x: Record, y: Record | x in p && y in multiset(q)
      ensures NotAfter(y.timestamp, x.timestamp)
    {
      var i :| 0 <= i < |p| && p[i] == x;
      var j :| 0 <= j < |q| && q[j] == y;
      SortedPair(sorted, i, k + j);
    }
  }

  /** Taking the first `k` leaves exactly the rest behind. */
  lemma SplitRemainder(s: seq<Record>, k: nat)
    requires k <= |s|
    ensures multiset(s[..k]) <= multiset(s)
    ensures multiset(s) - multiset(s[..k]) == multiset(s[k..])
  {
    assert s == s[..k] + s[k..];
    assert multiset(s) == multiset(s[..k]) + multiset(s[k..]);
  }

  lemma SortedPair(s: seq<Record>, i: nat, j: nat)
    requires NewestFirst(s) && i < j < |s|
    ensures NotAfter(s[j].timestamp, s[i].timestamp)
  {
  }

  /** With no more records than the limit, the read returns every record. */
  lemma NewestKeepsAllWhenFew(records: seq<Record>, limit: nat)
    requires |records| <= limit
    ensures multiset(Newest(records, limit)) == multiset(records)
  {
    var r := Newest(records, limit);
    var d := multiset(records) - multiset(r);
    assert multiset(records) == multiset(r) + d;
    assert |multiset(records)| == |multiset(r)| + |d|;
  }
}

=== FILE: text.dfy ===
/** String helpers the handlers rely on: `str.split(sep)` with its inverse `join`,
    the last path segment of a ref, and the decimal spelling of an integer
    (`str(n)`) with its inverse. */
module Text {
  import opened Wrappers

  /** `s.split(sep)`: the pieces between consecutive separators, always at least one. */
  function Split(s: string, sep: char): (parts: seq<string>)
    ensures |parts| >= 1
    ensures forall i :: 0 <= i < |parts| ==> sep !in parts[i]
    ensures |parts| == 1 <==> sep !in s
  {
    if s == [] then [""]
    else
      var rest := Split(s[1..], sep);
      if s[0] == sep then [""] + rest
      else [[s[0]] + rest[0]] + rest[1..]
  }

  /** `sep.join(parts)` for a non-empty list of pieces. */
  function Join(parts: seq<string>, sep: char): string
    requires |parts| >= 1
  {
    if |parts| == 1 then parts[0] else parts[0] + [sep] + Join(parts[1..], sep)
  }

  /** Joining the pieces of a split gives back the original string. */
  lemma {:induction false} JoinSplit(s: string, sep: char)
    ensures Join(Split(s, sep), sep) == s
  {
    if s == [] {
    } else {
      var rest := Split(s[1..], sep);
      JoinSplit(s[1..], sep);
      if s[0] == sep {
        assert Split(s, sep)[1..] == rest;
      } else {
        var parts := Split(s, sep);
        assert parts[1..] == rest[1..];
        if |rest| == 1 {
        } else {
          assert Join(rest, sep) == rest[0] + [sep] + Join(rest[1..], sep);
        }
      }
    }
  }

  /** Splitting a join of separator-free pieces gives back the pieces. */
  lemma {:induction false} SplitJoin(parts: seq<string>, sep: char)
    requires |parts| >= 1
    requires forall i :: 0 <= i < |parts| ==> sep !in parts[i]
    ensures Split(Join(parts, sep), sep) == parts
  {
    if |parts| == 1 {
      SplitNoSeparator(parts[0], sep);
    } else {
      SplitJoin(parts[1..], sep);
      SplitPrefix(parts[0], Join(parts[1..], sep), sep);
    }
  }

  lemma {:induction false} SplitNoSeparator(s: string, sep: char)
    requires sep !in s
    ensures Split(s, sep) == [s]
  {
    if s != [] {
      SplitNoSeparator(s[1..], sep);
      assert [s[0]] + s[1..] == s;
    }
  }

  /** Splitting `p + [sep] + t` for a separator-free `p` puts `p` in front of the pieces of `t`. */
  lemma {:induction false} SplitPrefix(p: string, t: string, sep: char)
    requires sep !in p
    ensures Split(p + [sep] + t, sep) == [p] + Split(t, sep)
  {
    if p == [] {
      assert p + [sep] + t == [sep] + t;
      assert ([sep] + t)[1..] == t;
    } else {
      SplitPrefix(p[1..], t, sep);
      assert (p + [sep] + t)[1..] == p[1..] + [sep] + t;
      assert [p[0]] + p[1..] == p;
    }
  }

  /** A join ends with its last piece, after a separator when there is more than one piece. */
  lemma {:induction false} JoinLast(parts: seq<string>, sep: char)
    requires |parts| >= 2
    ensures Join(parts, sep) == Join(parts[..|parts| - 1], sep) + [sep] + parts[|parts| - 1]
  {
    if |parts| == 2 {
      assert parts[..1] == [parts[0]];
    } else {
      JoinLast(parts[1..], sep);
      assert parts[1..][..|parts| - 2] == parts[..|parts| - 1][1..];
    }
  }

  /** `ref.split('/')[-1]`: the text after the last slash, or all of `ref` without one. */
  function LastSegment(ref: string): string {
    var parts := Split(ref, '/');
    parts[|parts| - 1]
  }

  /** The last segment holds no slash, ends `ref`, is all of `ref` exactly when `ref`
      has no slash, and otherwise follows the last slash of `ref`. */
  lemma LastSegmentShape(ref: string)
    ensures '/' !in LastSegment(ref)
    ensures |LastSegment(ref)| <= |ref| && ref[|ref| - |LastSegment(ref)|..] == LastSegment(ref)
    ensures LastSegment(ref) == ref <==> '/' !in ref
    ensures '/' in ref ==> ref[|ref| - |LastSegment(ref)| - 1] == '/'
  {
    var parts := Split(ref, '/');
    var seg := parts[|parts| - 1];
    JoinSplit(ref, '/');
    if |parts| >= 2 {
      JoinLast(parts, '/');
      var front := Join(parts[..|parts| - 1], '/');
      assert ref == front + ['/'] + seg;
      assert ref[|ref| - |seg|..] == seg;
      assert ref[|ref| - |seg| - 1] == '/';
      assert '/' in ref;
    } else {
      assert seg == ref;
    }
  }

  /** The lowercase hexadecimal digits, by value. */
  const HexAlphabet: string := "0123456789abcdef"

  predicate IsDigit(c: char) {
    '0' <= c <= '9'
  }

  function DigitChar(d: int): (c: char)
    requires 0 <= d <= 9
    ensures IsDigit(c) && DigitValue(c) == d
  {
    ('0' as int + d) as char
  }

  function DigitValue(c: char): int
    requires IsDigit(c)
  {
    c as int - '0' as int
  }

  lemma DigitCharValue(c: char)
    requires IsDigit(c)
    ensures 0 <= DigitValue(c) <= 9 && DigitChar(DigitValue(c)) == c
  {
  }

  /** The decimal spelling of a natural number, no leading zeros. */
  function Natural(n: nat): (r: string)
    ensures |r| >= 1
    ensures forall i :: 0 <= i < |r| ==> IsDigit(r[i])
    ensures r[0] == '0' ==> n == 0 && r == "0"
  {
    if n < 10 then [DigitChar(n)] else Natural(n / 10) + [DigitChar(n % 10)]
  }

  /** `str(n)` for a Python int: canonical, with the sign exactly for negatives. */
  function Decimal(n: int): (r: string)
    ensures CanonicalDecimal(r)
    ensures r[0] == '-' <==> n < 0
  {
    if n < 0 then "-" + Natural(-n) else Natural(n)
  }

  /** The value of a non-empty run of digits, most significant first. */
  function DigitsValue(s: string): nat
    requires forall i :: 0 <= i < |s| ==> IsDigit(s[i])
  {
    if s == [] then 0 else 10 * DigitsValue(s[..|s| - 1]) + DigitValue(s[|s| - 1])
  }

  predicate AllDigits(s: string) {
    forall i :: 0 <= i < |s| ==> IsDigit(s[i])
  }

  /** `int(s)` restricted to optionally signed ASCII digit runs. */
  function ParseDecimal(s: string): Option<int> {
    if |s| >= 2 && s[0] == '-' && AllDigits(s[1..]) then Some(0 - DigitsValue(s[1..]) as int)
    else if |s| >= 1 && AllDigits(s) then Some(DigitsValue(s))
    else None
  }

  lemma {:induction false} NaturalValue(n: nat)
    ensures DigitsValue(Natural(n)) == n
  {
    if n >= 10 {
      NaturalValue(n / 10);
      var r := Natural(n);
      assert r[..|r| - 1] == Natural(n / 10);
    }
  }

  /** The form `str(n)` gives an int: a non-empty digit run without leading zeros
      (or the single digit 0), preceded by a minus sign for negatives; no "-0". */
  predicate CanonicalDecimal(s: string) {
    if |s| >= 1 && s[0] == '-' then |s| >= 2 && AllDigits(s[1..]) && s[1] != '0'
    else |s| >= 1 && AllDigits(s) && (s[0] == '0' ==> s == "0")
  }

  /** A digit run with a non-zero lead digit has a positive value. */
  lemma {:induction false} NonZeroLead(s: string)
    requires |s| >= 1 && AllDigits(s) && s[0] != '0'
    ensures DigitsValue(s) >= 1
  {
    if |s| > 1 {
      var front := s[..|s| - 1];
      assert front[0] == s[0];
      NonZeroLead(front);
    }
  }

  /** A digit run without leading zeros is the spelling of its value. */
  lemma {:induction false} DigitsNatural(s: string)
    requires |s| >= 1 && AllDigits(s) && (s[0] == '0' ==> |s| == 1)
    ensures s == Natural(DigitsValue(s))
  {
    var last := s[|s| - 1];
    DigitCharValue(last);
    if |s| == 1 {
      assert s[..0] == [];
      assert s == [last];
    } else {
      var front := s[..|s| - 1];
      assert front[0] == s[0];
      DigitsNatural(front);
      NonZeroLead(front);
      var v := DigitsValue(s);
      assert v == 10 * DigitsValue(front) + DigitValue(last);
      assert v / 10 == DigitsValue(front) && v % 10 == DigitValue(last);
      assert s == front + [last];
    }
  }

  /** `str(n)` is the only canonical spelling that reads back as `n`. */
  lemma CanonicalDecimalUnique(s: string, n: int)
    requires CanonicalDecimal(s) && ParseDecimal(s) == Some(n)
    ensures s == Decimal(n)
  {
    if s[0] == '-' {
      NonZeroLead(s[1..]);
      DigitsNatural(s[1..]);
      assert s == "-" + s[1..];
    } else {
      DigitsNatural(s);
    }
  }

  /** Reading back the decimal spelling of an integer gives the integer. */
  lemma DecimalRoundTrip(n: int)
    ensures ParseDecimal(Decimal(n)) == Some(n)
  {
    var s := Decimal(n);
    if n < 0 {
      NaturalValue(-n);
      assert s[1..] == Natural(-n);
      assert |s| >= 2 && s[0] == '-' && AllDigits(s[1..]);
      assert ParseDecimal(s) == Some(0 - DigitsValue(s[1..]) as int);
    } else {
      NaturalValue(n);
      assert s == Natural(n) && s[0] != '-';
    }
  }

  /** Distinct integers have distinct decimal spellings. */
  lemma DecimalInjective(a: int, b: int)
    requires Decimal(a) == Decimal(b)
    ensures a == b
  {
    DecimalRoundTrip(a);
    DecimalRoundTrip(b);
  }
}

=== FILE: timestamp.dfy ===
/** `datetime.strptime(s, '%Y-%m-%dT%H:%M:%SZ')` as the handlers use it, its
    inverse (the zero-padded rendering in the same layout), and the chronological order the
    event feed sorts by.

    The pattern compiles to a case-insensitive regular expression anchored at both
    ends: `%Y` is exactly four digits; `%m`, `%d`, `%H`, `%M`, `%S` are one or two
    digits, and `%d` may also be a space followed by a digit; the literal `T` and
    `Z` match either case. The matched numbers then go through the `datetime`
    constructor, which rejects year 0, a day past the end of its month and second
    60 or 61. The ranges the regular expression itself imposes on two-digit fields
    (month 01-12, day 01-31, hour 00-23, minute 00-59, second 00-61) are all implied
    by that validity check, so the model reads the shape first and checks validity
    once. */
module Timestamp {
  import opened Wrappers
  import opened Text

  datatype DateTime = DateTime(year: int, month: int, day: int, hour: int, minute: int, second: int)

  predicate LeapYear(y: int) {
    y % 4 == 0 && (y % 100 != 0 || y % 400 == 0)
  }

  function DaysInMonth(year: int, month: int): int
    requires 1 <= month <= 12
  {
    if month == 2 then (if LeapYear(year) then 29 else 28)
    else if month == 4 || month == 6 || month == 9 || month == 11 then 30
    else 31
  }

  /** The field values the proleptic-Gregorian `datetime` constructor accepts. */
  predicate Valid(t: DateTime) {
    && 1 <= t.year <= 9999
    && 1 <= t.month <= 12
    && 1 <= t.day <= DaysInMonth(t.year, t.month)
    && 0 <= t.hour <= 23
    && 0 <= t.minute <= 59
    && 0 <= t.second <= 59
  }

  /** How a one- or two-digit field is written: zero-padded ("05"), as a single
      digit ("5"), or, for the day only, padded with a space (" 5"). */
  datatype Pad = Two | One | Blank

  /** The freedom the pattern leaves: the width of each short field and the case
      of the literal `T` and `Z`. */
  datatype Spelling = Spelling(month: Pad, day: Pad, hour: Pad, minute: Pad, second: Pad,
                               upperT: bool, upperZ: bool)

  const Canonical: Spelling := Spelling(Two, Two, Two, Two, Two, true, true)

  predicate Fits(v: int, p: Pad) {
    0 <= v <= 99 && (p != Two ==> v <= 9)
  }

  /** `t` can be written with spelling `w`: every field fits its width and only
      the day is space-padded. */
  predicate Admissible(t: DateTime, w: Spelling) {
    && 0 <= t.year <= 9999
    && Fits(t.month, w.month) && w.month != Blank
    && Fits(t.day, w.day)
    && Fits(t.hour, w.hour) && w.hour != Blank
    && Fits(t.minute, w.minute) && w.minute != Blank
    && Fits(t.second, w.second) && w.second != Blank
  }

  function Field(v: int, p: Pad): string
    requires Fits(v, p)
  {
    match p
    case Two => [DigitChar(v / 10), DigitChar(v % 10)]
    case One => [DigitChar(v)]
    case Blank => [' ', DigitChar(v)]
  }

  function YearField(y: int): string
    requires 0 <= y <= 9999
  {
    [DigitChar(y / 1000), DigitChar(y / 100 % 10), DigitChar(y / 10 % 10), DigitChar(y % 10)]
  }

  /** The text of `t` under spelling `w`. */
  function Spell(t: DateTime, w: Spelling): string
    requires Admissible(t, w)
  {
    YearField(t.year) + ['-'] +
    (Field(t.month, w.month) + ['-'] +
    (Field(t.day, w.day) + [if w.upperT then 'T' else 't'] +
    (Field(t.hour, w.hour) + [':'] +
    (Field(t.minute, w.minute) + [':'] +
    (Field(t.second, w.second) + [if w.upperZ then 'Z' else 'z'])))))
  }

  /** The zero-padded rendering of `t` in the pattern's layout, a four-digit year
      included. (Python's `strftime('%Y…')` may write a year below 1000 with fewer
      digits, depending on the C library.) */
  function Format(t: DateTime): (s: string)
    requires Valid(t)
    ensures |s| == 20
  {
    Spell(t, Canonical)
  }

  /** The literal that ends each short field. */
  datatype Separator = Dash | Tee | Colon | Zulu

  predicate Ends(k: Separator, c: char) {
    match k
    case Dash => c == '-'
    case Tee => c == 'T' || c == 't'
    case Colon => c == ':'
    case Zulu => c == 'Z' || c == 'z'
  }

  /** One short field, the literal after it, and the text after that. */
  datatype Lexeme = Lexeme(value: int, pad: Pad, sep: char, rest: string)

  function ReadField(s: string, blankOk: bool, k: Separator): (r: Option<Lexeme>)
    ensures r.Some? ==> Fits(r.value.value, r.value.pad) && (r.value.pad == Blank ==> blankOk)
    ensures r.Some? ==> Ends(k, r.value.sep)
    ensures r.Some? ==> s == Field(r.value.value, r.value.pad) + [r.value.sep] + r.value.rest
  {
    if |s| >= 2 && IsDigit(s[0]) && Ends(k, s[1]) then
      DigitCharValue(s[0]);
      assert s == [s[0]] + [s[1]] + s[2..];
      Some(Lexeme(DigitValue(s[0]), One, s[1], s[2..]))
    else if |s| >= 3 && IsDigit(s[1]) && Ends(k, s[2]) then
      DigitCharValue(s[1]);
      assert s == [s[0], s[1]] + [s[2]] + s[3..];
      if IsDigit(s[0]) then
        DigitCharValue(s[0]);
        Some(Lexeme(10 * DigitValue(s[0]) + DigitValue(s[1]), Two, s[2], s[3..]))
      else if blankOk && s[0] == ' ' then
        Some(Lexeme(DigitValue(s[1]), Blank, s[2], s[3..]))
      else None
    else None
  }

  /** The five fields after the year, in order. */
  datatype Fields = Fields(mo: Lexeme, dd: Lexeme, hh: Lexeme, mi: Lexeme, ss: Lexeme)

  /** `f` is `s` read field by field: each field fits its width and ends in
      its literal, and nothing follows the final `Z`. */
  predicate Chained(s: string, f: Fields) {
    && Fits(f.mo.value, f.mo.pad) && f.mo.pad != Blank && Ends(Dash, f.mo.sep)
    && Fits(f.dd.value, f.dd.pad) && Ends(Tee, f.dd.sep)
    && Fits(f.hh.value, f.hh.pad) && f.hh.pad != Blank && Ends(Colon, f.hh.sep)
    && Fits(f.mi.value, f.mi.pad) && f.mi.pad != Blank && Ends(Colon, f.mi.sep)
    && Fits(f.ss.value, f.ss.pad) && f.ss.pad != Blank && Ends(Zulu, f.ss.sep) && f.ss.rest == ""
    && s == Field(f.mo.value, f.mo.pad) + [f.mo.sep] + f.mo.rest
    && f.mo.rest == Field(f.dd.value, f.dd.pad) + [f.dd.sep] + f.dd.rest
    && f.dd.rest == Field(f.hh.value, f.hh.pad) + [f.hh.sep] + f.hh.rest
    && f.hh.rest == Field(f.mi.value, f.mi.pad) + [f.mi.sep] + f.mi.rest
    && f.mi.rest == Field(f.ss.value, f.ss.pad) + [f.ss.sep]
  }

  /** Reads month, day, hour, minute and second, each with the literal after it,
      and requires nothing to follow the final `Z`. */
  function Lexemes(s: string): (r: Option<Fields>)
    ensures r.Some? ==> Chained(s, r.value)
  {
    var mo :- ReadField(s, false, Dash);
    var dd :- ReadField(mo.rest, true, Tee);
    var hh :- ReadField(dd.rest, false, Colon);
    var mi :- ReadField(hh.rest, false, Colon);
    var ss :- ReadField(mi.rest, false, Zulu);
    if ss.rest != "" then None
    else
      assert mi.rest == Field(ss.value, ss.pad) + [ss.sep];
      Some(Fields(mo, dd, hh, mi, ss))
  }

  /** Matches `s` against the pattern's shape, yielding the field values and the
      spelling they were written in. */
  function Scan(s: string): Option<(DateTime, Spelling)> {
    if |s| < 5 || !(IsDigit(s[0]) && IsDigit(s[1]) && IsDigit(s[2]) && IsDigit(s[3])) || s[4] != '-' then None
    else
      match Lexemes(s[5..])
      case None => None
      case Some(f) => Some(Assemble(YearValue(s), f))
  }

  /** The field values read and the spelling they were read in. */
  function Assemble(year: int, f: Fields): (DateTime, Spelling) {
    (DateTime(year, f.mo.value, f.dd.value, f.hh.value, f.mi.value, f.ss.value),
     Spelling(f.mo.pad, f.dd.pad, f.hh.pad, f.mi.pad, f.ss.pad, f.dd.sep == 'T', f.ss.sep == 'Z'))
  }

  function YearValue(s: string): int
    requires |s| >= 4 && IsDigit(s[0]) && IsDigit(s[1]) && IsDigit(s[2]) && IsDigit(s[3])
  {
    1000 * DigitValue(s[0]) + 100 * DigitValue(s[1]) + 10 * DigitValue(s[2]) + DigitValue(s[3])
  }

  /** Whatever `Scan` accepts is the spelling of what it returns. */
  lemma ScanSound(s: string)
    requires Scan(s).Some?
    ensures Admissible(Scan(s).value.0, Scan(s).value.1)
    ensures Spell(Scan(s).value.0, Scan(s).value.1) == s
  {
    var f := ScanParts(s);
    YearPrefix(s);
    LexemesSpelled(s, YearValue(s), f);
  }

  /** What `Scan` found when it succeeds: a four-digit year, a dash, and the
      five fields after it. */
  lemma ScanParts(s: string) returns (f: Fields)
    requires Scan(s).Some?
    ensures |s| >= 5 && IsDigit(s[0]) && IsDigit(s[1]) && IsDigit(s[2]) && IsDigit(s[3]) && s[4] == '-'
    ensures Chained(s[5..], f) && Scan(s) == Some(Assemble(YearValue(s), f))
  {
    f := Lexemes(s[5..]).value;
  }

  /** Five fields read one after another, each ending in its literal, spell the
      datetime and spelling that `Scan` assembles from them. */
  lemma LexemesSpelled(s: string, year: int, f: Fields)
    requires 0 <= year <= 9999 && |s| >= 5 && s == YearField(year) + ['-'] + s[5..]
    requires Chained(s[5..], f)
    ensures var (t, w) := Assemble(year, f); Admissible(t, w) && Spell(t, w) == s
  {
    var tc := if f.dd.sep == 'T' then 'T' else 't';
    var zc := if f.ss.sep == 'Z' then 'Z' else 'z';
    assert [f.dd.sep] == [tc] && [f.ss.sep] == [zc];
    Nest(s[5..], Field(f.mo.value, f.mo.pad), ['-'], f.mo.rest, Field(f.dd.value, f.dd.pad), [tc], f.dd.rest,
         Field(f.hh.value, f.hh.pad), [':'], f.hh.rest, Field(f.mi.value, f.mi.pad), [':'], f.mi.rest,
         Field(f.ss.value, f.ss.pad), [zc]);
  }

  /** Text read off field by field, each field followed by what remains, is the
      fields nested to the right. */
  lemma Nest(s: string, a: string, p: string, ra: string, b: string, q: string, rb: string,
             c: string, x: string, rc: string, d: string, y: string, rd: string, e: string, z: string)
    requires s == a + p + ra && ra == b + q + rb && rb == c + x + rc && rc == d + y + rd && rd == e + z
    ensures s == a + p + (b + q + (c + x + (d + y + (e + z))))
  {
  }

  lemma FourDigits(a: int, b: int, c: int, d: int)
    requires 0 <= a <= 9 && 0 <= b <= 9 && 0 <= c <= 9 && 0 <= d <= 9
    ensures var v := 1000 * a + 100 * b + 10 * c + d;
            v / 1000 == a && v / 100 % 10 == b && v / 10 % 10 == c && v % 10 == d
  {
    var v := 1000 * a + 100 * b + 10 * c + d;
    assert v / 10 == 100 * a + 10 * b + c;
    assert v / 100 == 10 * a + b;
  }

  /** Four digits and a dash are the year's field followed by the dash. */
  lemma YearPrefix(s: string)
    requires |s| >= 5 && IsDigit(s[0]) && IsDigit(s[1]) && IsDigit(s[2]) && IsDigit(s[3]) && s[4] == '-'
    ensures 0 <= YearValue(s) <= 9999 && s == YearField(YearValue(s)) + ['-'] + s[5..]
  {
    DigitCharValue(s[0]);
    DigitCharValue(s[1]);
    DigitCharValue(s[2]);
    DigitCharValue(s[3]);
    FourDigits(DigitValue(s[0]), DigitValue(s[1]), DigitValue(s[2]), DigitValue(s[3]));
    assert s == s[..4] + ['-'] + s[5..];
  }

  /** `datetime.strptime(s, '%Y-%m-%dT%H:%M:%SZ')`; None where it raises ValueError. */
  function ParseTimestamp(s: string): (r: Option<DateTime>)
    ensures r.Some? ==> Valid(r.value)
    ensures r.Some? ==> exists w :: Admissible(r.value, w) && Spell(r.value, w) == s
  {
    match Scan(s)
    case Some((t, w)) => ScanSound(s); if Valid(t) then Some(t) else None
    case None => None
  }

  /** Reading a field back from its own spelling gives its value and width. */
  lemma ReadFieldSpelled(v: int, p: Pad, c: char, rest: string, blankOk: bool, k: Separator)
    requires Fits(v, p) && (p == Blank ==> blankOk) && Ends(k, c)
    ensures ReadField(Field(v, p) + [c] + rest, blankOk, k) == Some(Lexeme(v, p, c, rest))
  {
    var s := Field(v, p) + [c] + rest;
    match p
    case Two =>
      assert s[0] == DigitChar(v / 10) && s[1] == DigitChar(v % 10) && s[2] == c;
      assert s[3..] == rest;
    case One =>
      assert s[0] == DigitChar(v) && s[1] == c;
      assert s[2..] == rest;
    case Blank =>
      assert s[0] == ' ' && s[1] == DigitChar(v) && s[2] == c;
      assert s[3..] == rest;
  }

  lemma YearSpelled(y: int, rest: string)
    requires 0 <= y <= 9999
    ensures var s := YearField(y) + ['-'] + rest;
            |s| >= 5 && IsDigit(s[0]) && IsDigit(s[1]) && IsDigit(s[2]) && IsDigit(s[3]) && s[4] == '-'
            && s[5..] == rest && YearValue(s) == y
  {
    var s := YearField(y) + ['-'] + rest;
    var a, b, c, d := y / 1000, y / 100 % 10, y / 10 % 10, y % 10;
    assert s[0] == DigitChar(a) && s[1] == DigitChar(b) && s[2] == DigitChar(c) && s[3] == DigitChar(d);
    assert s[5..] == rest;
    YearSplit(y);
  }

  /** The four decimal digits of a year recombine to it. */
  lemma YearSplit(y: int)
    requires 0 <= y <= 9999
    ensures 0 <= y / 1000 <= 9 && 0 <= y / 100 % 10 <= 9 && 0 <= y / 10 % 10 <= 9 && 0 <= y % 10 <= 9
    ensures 1000 * (y / 1000) + 100 * (y / 100 % 10) + 10 * (y / 10 % 10) + y % 10 == y
  {
    assert y / 100 == 10 * (y / 1000) + y / 100 % 10;
    assert y / 10 == 10 * (y / 100) + y / 10 % 10;
  }

  /** Scanning the spelling of any field values gives back the values and the spelling. */
  lemma ScanSpelled(t: DateTime, w: Spelling)
    requires Admissible(t, w)
    ensures Scan(Spell(t, w)) == Some((t, w))
  {
    var rest, f := LexemesOfSpelling(t, w);
    YearSpelled(t.year, rest);
    assert Assemble(t.year, f) == (t, w);
  }

  /** The text after the year's dash in the spelling of `t` reads back as the
      five fields of `t`, written with the widths and literals `w` chose. */
  lemma LexemesOfSpelling(t: DateTime, w: Spelling) returns (rest: string, f: Fields)
    requires Admissible(t, w)
    ensures Spell(t, w) == YearField(t.year) + ['-'] + rest
    ensures Lexemes(rest) == Some(f)
    ensures f.mo.value == t.month && f.dd.value == t.day && f.hh.value == t.hour
    ensures f.mi.value == t.minute && f.ss.value == t.second
    ensures f.mo.pad == w.month && f.dd.pad == w.day && f.hh.pad == w.hour
    ensures f.mi.pad == w.minute && f.ss.pad == w.second
    ensures (f.dd.sep == 'T' <==> w.upperT) && (f.ss.sep == 'Z' <==> w.upperZ)
  {
    var tc := if w.upperT then 'T' else 't';
    var zc := if w.upperZ then 'Z' else 'z';
    var r5 := Field(t.second, w.second) + [zc];
    var r4 := Field(t.minute, w.minute) + [':'] + r5;
    var r3 := Field(t.hour, w.hour) + [':'] + r4;
    var r2 := Field(t.day, w.day) + [tc] + r3;
    rest := Field(t.month, w.month) + ['-'] + r2;
    ReadFieldSpelled(t.month, w.month, '-', r2, false, Dash);
    ReadFieldSpelled(t.day, w.day, tc, r3, true, Tee);
    ReadFieldSpelled(t.hour, w.hour, ':', r4, false, Colon);
    ReadFieldSpelled(t.minute, w.minute, ':', r5, false, Colon);
    ReadFieldSpelled(t.second, w.second, zc, "", false, Zulu);
    assert r5 == Field(t.second, w.second) + [zc] + "";
    f := Fields(Lexeme(t.month, w.month, '-', r2), Lexeme(t.day, w.day, tc, r3), Lexeme(t.hour, w.hour, ':', r4),
                Lexeme(t.minute, w.minute, ':', r5), Lexeme(t.second, w.second, zc, ""));
  }

  /** Every spelling the pattern admits of a valid datetime parses back to it. */
  lemma ParseSpelled(t: DateTime, w: Spelling)
    requires Valid(t) && Admissible(t, w)
    ensures ParseTimestamp(Spell(t, w)) == Some(t)
  {
    ScanSpelled(t, w);
  }

  /** A spelling of field values no `datetime` can hold (February 30th, second 60,
      year 0) fails to parse. */
  lemma ParseRejectsInvalid(t: DateTime, w: Spelling)
    requires Admissible(t, w) && !Valid(t)
    ensures ParseTimestamp(Spell(t, w)) == None
  {
    ScanSpelled(t, w);
  }

  /** Parsing the zero-padded rendering of a valid datetime gives it back. */
  lemma FormatRoundTrip(t: DateTime)
    requires Valid(t)
    ensures ParseTimestamp(Format(t)) == Some(t)
  {
    ParseSpelled(t, Canonical);
  }

  /** A parsed text in the zero-padded form (twenty characters, upper-case
      literals, no space before the day) is exactly the formatting of its value. */
  lemma ParseFormatCanonical(s: string, t: DateTime)
    requires ParseTimestamp(s) == Some(t)
    requires |s| == 20 && s[8] != ' ' && s[10] == 'T' && s[19] == 'Z'
    ensures Format(t) == s
  {
    ScanSound(s);
    var w := Scan(s).value.1;
    assert Scan(s).value.0 == t;
    SpellLength(t, w);
    SpellLiterals(t, w);
    assert w == Canonical;
  }

  lemma SpellLiterals(t: DateTime, w: Spelling)
    requires Admissible(t, w)
    requires w.month != One && w.day != One && w.hour != One && w.minute != One && w.second != One
    ensures Spell(t, w)[8] == ' ' <==> w.day == Blank
    ensures Spell(t, w)[10] == (if w.upperT then 'T' else 't')
    ensures Spell(t, w)[19] == (if w.upperZ then 'Z' else 'z')
  {
    var tc := if w.upperT then 'T' else 't';
    var zc := if w.upperZ then 'Z' else 'z';
    var r3 := Field(t.hour, w.hour) + [':'] + (Field(t.minute, w.minute) + [':'] + (Field(t.second, w.second) + [zc]));
    var front := YearField(t.year) + ['-'] + Field(t.month, w.month) + ['-'];
    var head := front + Field(t.day, w.day);
    assert |front| == 8;
    assert head[8] == Field(t.day, w.day)[0];
    assert |head| == 10;
    Flatten(YearField(t.year), ['-'], Field(t.month, w.month), ['-'], Field(t.day, w.day), [tc], r3);
    assert |r3| == 9;
    assert r3[8] == zc;
  }

  /** Two right-nested concatenations written out flat. */
  lemma Flatten(a: string, p: string, b: string, q: string, c: string, x: string, r: string)
    ensures a + p + (b + q + (c + x + r)) == a + p + b + q + c + x + r
  {
  }

  function Width(p: Pad): nat {
    if p == One then 1 else 2
  }

  lemma SpellLength(t: DateTime, w: Spelling)
    requires Admissible(t, w)
    ensures |Spell(t, w)| == 10 + Width(w.month) + Width(w.day) + Width(w.hour) + Width(w.minute) + Width(w.second)
  {
  }

  /** Chronological order: `a` is not later than `b`. */
  predicate NotAfter(a: DateTime, b: DateTime) {
    if a.year != b.year then a.year < b.year
    else if a.month != b.month then a.month < b.month
    else if a.day != b.day then a.day < b.day
    else if a.hour != b.hour then a.hour < b.hour
    else if a.minute != b.minute then a.minute < b.minute
    else a.second <= b.second
  }

  /** Any two datetimes are ordered one way or the other, and the order is
      transitive and antisymmetric. */
  lemma NotAfterTotalOrder(a: DateTime, b: DateTime, c: DateTime)
    ensures NotAfter(a, b) || NotAfter(b, a)
    ensures NotAfter(a, b) && NotAfter(b, c) ==> NotAfter(a, c)
    ensures NotAfter(a, b) && NotAfter(b, a) ==> a == b
  {
  }
}

=== FILE: webhook.dfy ===
/** The two routes of the receiver: `POST /webhook` (signature gate, event-kind
    dispatch, status mapping, at most one stored record) and `GET /api/events`
    (the newest records). The document store is threaded through as a value. */
module Webhook {
  import opened Wrappers
  import opened Json
  import opened Exceptions
  import opened Timestamp
  import opened Signature
  import opened Store
  import opened Normalize

  /** What `request.get_json(silent=True)` makes of the body: nothing when it is
      not sent as JSON or the decoder rejects it with ValueError, the decoded
      value, or a RecursionError from a body nested past the interpreter's
      recursion limit, which `silent` does not swallow. */
  datatype Decoding = NotJson | Decoded(value: Json) | TooDeep

  /** One delivery to `/webhook`: the `X-Hub-Signature-256` and `X-GitHub-Event`
      headers (absent, or their text), the raw body bytes, and the outcome of
      decoding the body. */
  datatype Request = Request(signature: Option<string>, event: Option<string>,
                             body: seq<Byte>, json: Decoding)

  /** Deployment configuration: `WEBHOOK_SECRET` and the keyed MAC. */
  datatype Config = Config(secret: Option<string>, mac: Mac)

  /** The JSON body of a response. */
  datatype Reply =
    | Ok                          // {"status": "success"}
    | Error(message: string)      // {"error": message}
    | ErrorPage                   // the framework's page for an escaped exception
    | Events(records: seq<Record>)

  datatype Response = Response(status: nat, reply: Reply)

  /** `request.get_json(silent=True) or {}`: a missing, undecodable or falsy body
      becomes the empty dict; a body too deep to decode raises. */
  function Payload(json: Decoding): (data: Raises<Json>)
    ensures data.Failure? <==> json.TooDeep?
    ensures json.Decoded? && Truthy(json.value) ==> data == Success(json.value)
    ensures json.NotJson? || (json.Decoded? && !Truthy(json.value)) ==> data == Success(JObject([]))
  {
    match json
    case TooDeep => Failure(RecursionError)
    case Decoded(v) => if Truthy(v) then Success(v) else Success(JObject([]))
    case NotJson => Success(JObject([]))
  }

  /** The store only grows, by at most one record, and only on success. */
  predicate AppendedAtMostOne(before: Store, after: Store, status: nat) {
    after == before ||
    (status == 200 && after.online == before.online && after.maxNesting == before.maxNesting &&
     |after.records| == |before.records| + 1 && after.records[..|before.records|] == before.records)
  }

  /** What a handler's outcome becomes: any exception, including a failed insert,
      is 500 "Processing failed" with nothing stored; otherwise 200, with the
      built record appended when there is one. */
  function Commit(built: Raises<Option<Record>>, st: Store): (out: (Response, Store))
    ensures built.Failure? ==> out == (Response(500, Error("Processing failed")), st)
    ensures built == Success(None) ==> out == (Response(200, Ok), st)
    ensures built.Success? && built.value.Some? && st.online && Storable(built.value.value, st.maxNesting) ==>
              out == (Response(200, Ok), st.(records := st.records + [built.value.value]))
    ensures built.Success? && built.value.Some? && !(st.online && Storable(built.value.value, st.maxNesting)) ==>
              out == (Response(500, Error("Processing failed")), st)
  {
    match built
    case Failure(_) => (Response(500, Error("Processing failed")), st)
    case Success(None) => (Response(200, Ok), st)
    case Success(Some(rec)) =>
      match InsertOne(st, rec)
      case Success(st') => (Response(200, Ok), st')
      case Failure(_) => (Response(500, Error("Processing failed")), st)
  }

  /** The dispatch on the event header, once the payload has been decoded. */
  function Dispatch(event: Option<string>, data: Json, st: Store): (out: (Response, Store))
    ensures !Present(event) ==> out == (Response(400, Error("Missing event type")), st)
    ensures Present(event) && event.value != "push" && event.value != "pull_request" ==>
              out == (Response(400, Error("Unsupported event type")), st)
    ensures out.0.status in {200, 400, 500}
    ensures AppendedAtMostOne(st, out.1, out.0.status)
    ensures |out.1.records| > |st.records| ==> Valid(out.1.records[|st.records|].timestamp)
  {
    if !Present(event) then (Response(400, Error("Missing event type")), st)
    else if event.value == "push" then Commit(Built(HandlePush(data)), st)
    else if event.value == "pull_request" then Commit(HandlePullRequest(data), st)
    else (Response(400, Error("Unsupported event type")), st)
  }

  /** The body of the `webhook` route once the signature gate has let it run: the
      payload is decoded before the event header is read, so a body too deep to
      decode answers 500 whatever the header says. */
  function Route(event: Option<string>, json: Decoding, st: Store): (out: (Response, Store))
    ensures json.TooDeep? ==> out == (Response(500, Error("Processing failed")), st)
    ensures !json.TooDeep? ==> out == Dispatch(event, Payload(json).value, st)
    ensures out.0.status in {200, 400, 500}
    ensures AppendedAtMostOne(st, out.1, out.0.status)
  {
    match Payload(json)
    case Failure(_) => (Response(500, Error("Processing failed")), st)
    case Success(data) => Dispatch(event, data, st)
  }

  /** `POST /webhook`: the signature gate, then the route. */
  function Handle(cfg: Config, req: Request, st: Store): (out: (Response, Store))
    ensures !Enabled(cfg.secret) ==> out == Route(req.event, req.json, st)
    ensures Enabled(cfg.secret) && !Present(req.signature) ==>
              out == (Response(403, Error("Missing signature")), st)
    ensures Enabled(cfg.secret) && Present(req.signature) ==>
              (req.signature.value == Expected(cfg.mac, cfg.secret.value, req.body) <==>
               out == Route(req.event, req.json, st))
    ensures Enabled(cfg.secret) && Present(req.signature) && IsAscii(req.signature.value) &&
            req.signature.value != Expected(cfg.mac, cfg.secret.value, req.body) ==>
              out == (Response(403, Error("Invalid signature")), st)
    ensures Enabled(cfg.secret) && Present(req.signature) && !IsAscii(req.signature.value) ==>
              out == (Response(500, ErrorPage), st)
    ensures out.0.status in {200, 400, 403, 500}
    ensures out.0.status == 403 ==> Enabled(cfg.secret) && out.1 == st
    ensures AppendedAtMostOne(st, out.1, out.0.status)
  {
    match Verify(cfg.secret, cfg.mac, req.signature, req.body)
    case Accept => Route(req.event, req.json, st)
    case Reject(reason) => (Response(403, Error(reason)), st)
    case Crash => (Response(500, ErrorPage), st)
  }

  /** `GET /api/events`: the ten newest records, or 500 when the database fails. */
  function GetEvents(st: Store): (resp: Response)
    ensures !st.online ==> resp == Response(500, Error("Failed to fetch events"))
    ensures st.online ==> resp.status == 200 && resp.reply.Events?
    ensures resp.reply.Events? ==>
              && |resp.reply.records| == Min(PageSize, |st.records|)
              && NewestFirst(resp.reply.records)
              && multiset(resp.reply.records) <= multiset(st.records)
              && forall x, y :: x in resp.reply.records && y in multiset(st.records) - multiset(resp.reply.records) ==>
                                  NotAfter(y.timestamp, x.timestamp)
  {
    if st.online then Response(200, Events(Newest(st.records, PageSize)))
    else Response(500, Error("Failed to fetch events"))
  }

  /** A rejected delivery is never decoded: its outcome does not depend on the
      body's decoded form, and nothing is stored. */
  lemma RejectionIgnoresPayload(cfg: Config, req: Request, st: Store, other: Decoding)
    requires Verify(cfg.secret, cfg.mac, req.signature, req.body) != Accept
    ensures Handle(cfg, req, st) == Handle(cfg, req.(json := other), st)
    ensures Handle(cfg, req, st).1 == st
  {
  }

  /** The repository's own test: with a secret configured, an unsigned post of
      `{"test": "payload"}` is refused with 403. */
  lemma UnsignedPostForbidden(cfg: Config, body: seq<Byte>, st: Store)
    requires Enabled(cfg.secret)
    ensures var req := Request(None, None, body, Decoded(JObject([Member("test", JString("payload"))])));
            Handle(cfg, req, st) == (Response(403, Error("Missing signature")), st)
  {
  }

  /** An accepted push whose fields are all usable stores exactly the record the
      payload describes and answers 200, unless the driver cannot encode that
      record, when it answers 500 and stores nothing. */
  lemma PushStored(data: Json, st: Store)
    requires PushReady(data) && st.online
    ensures Storable(PushSpec(data), st.maxNesting) ==>
              Dispatch(Some("push"), data, st) == (Response(200, Ok), st.(records := st.records + [PushSpec(data)]))
    ensures !Storable(PushSpec(data), st.maxNesting) ==>
              Dispatch(Some("push"), data, st) == (Response(500, Error("Processing failed")), st)
  {
    HandlePushSpec(data);
  }

  /** An accepted push with a missing field, an unusable ref or an unparsable
      timestamp answers 500 and stores nothing. */
  lemma PushRejected(data: Json, st: Store)
    requires !PushReady(data)
    ensures Dispatch(Some("push"), data, st) == (Response(500, Error("Processing failed")), st)
  {
    HandlePushSpec(data);
  }

  /** An accepted merged close stores the merge record when its fields are usable
      and the driver can encode it, and otherwise answers 500 with nothing stored. */
  lemma MergeStored(data: Json, st: Store)
    requires data.JObject? && st.online
    requires var pr := Get(data, "pull_request").value;
             Truthy(pr) && ActionIs(data, "closed") && pr.JObject? && Truthy(Get(pr, "merged").value)
    ensures var pr := Get(data, "pull_request").value;
            var out := Dispatch(Some("pull_request"), data, st);
            && (PullReady(pr, "merged_by", "merged_at") && Storable(PullSpec(pr, Merge, "merged_by", "merged_at"), st.maxNesting) ==>
                  out == (Response(200, Ok), st.(records := st.records + [PullSpec(pr, Merge, "merged_by", "merged_at")])))
            && (PullReady(pr, "merged_by", "merged_at") && !Storable(PullSpec(pr, Merge, "merged_by", "merged_at"), st.maxNesting) ==>
                  out == (Response(500, Error("Processing failed")), st))
            && (!PullReady(pr, "merged_by", "merged_at") ==>
                  out == (Response(500, Error("Processing failed")), st))
  {
    HandlePullRequestSpec(data);
  }

  /** An accepted open or reopen stores the pull-request record when its fields
      are usable and the driver can encode it, and otherwise answers 500 with
      nothing stored. */
  lemma OpenedStored(data: Json, st: Store)
    requires data.JObject? && st.online
    requires Truthy(Get(data, "pull_request").value)
    requires ActionIs(data, "opened") || ActionIs(data, "reopened")
    ensures var pr := Get(data, "pull_request").value;
            var out := Dispatch(Some("pull_request"), data, st);
            && (PullReady(pr, "user", "created_at") && Storable(PullSpec(pr, PullRequest, "user", "created_at"), st.maxNesting) ==>
                  out == (Response(200, Ok), st.(records := st.records + [PullSpec(pr, PullRequest, "user", "created_at")])))
            && (PullReady(pr, "user", "created_at") && !Storable(PullSpec(pr, PullRequest, "user", "created_at"), st.maxNesting) ==>
                  out == (Response(500, Error("Processing failed")), st))
            && (!PullReady(pr, "user", "created_at") ==>
                  out == (Response(500, Error("Processing failed")), st))
  {
    HandlePullRequestSpec(data);
  }

  /** Any other pull-request action, a close without a truthy `merged` among them,
      is handled: 200 and nothing stored. */
  lemma OtherPullActionIgnored(data: Json, st: Store)
    requires data.JObject?
    requires var pr := Get(data, "pull_request").value;
             && Truthy(pr)
             && !ActionIs(data, "opened") && !ActionIs(data, "reopened")
             && (ActionIs(data, "closed") ==> pr.JObject? && !Truthy(Get(pr, "merged").value))
    ensures Dispatch(Some("pull_request"), data, st) == (Response(200, Ok), st)
  {
    HandlePullRequestSpec(data);
  }

  /** A pull-request delivery without a truthy `pull_request` (an undecodable or
      empty body among them), or with a body too deep to decode, answers 500 and
      stores nothing. */
  lemma PullWithoutPullRequest(json: Decoding, st: Store)
    requires json.TooDeep? || !Payload(json).value.JObject? || !Truthy(Get(Payload(json).value, "pull_request").value)
    ensures Route(Some("pull_request"), json, st) == (Response(500, Error("Processing failed")), st)
  {
  }

  /** A run of deliveries against one store. */
  function Run(cfg: Config, reqs: seq<Request>, st: Store): Store
    decreases |reqs|
  {
    if reqs == [] then st else Run(cfg, reqs[1..], Handle(cfg, reqs[0], st).1)
  }

  /** Every stored timestamp is one a `datetime` can hold. */
  predicate TimestampsValid(st: Store) {
    forall i :: 0 <= i < |st.records| ==> Valid(st.records[i].timestamp)
  }

  /** Over any run of deliveries, stored records are never changed or removed,
      each delivery adds at most one, and every stored timestamp stays valid. */
  lemma {:induction false} RunAppendOnly(cfg: Config, reqs: seq<Request>, st: Store)
    requires TimestampsValid(st)
    ensures var final := Run(cfg, reqs, st);
            && |st.records| <= |final.records| <= |st.records| + |reqs|
            && final.records[..|st.records|] == st.records
            && TimestampsValid(final)
  {
    if reqs != [] {
      var out := Handle(cfg, reqs[0], st);
      var next := out.1;
      assert TimestampsValid(next) by {
        if next != st {
          assert next.records == st.records + [next.records[|st.records|]];
          if out.0.status == 200 && Verify(cfg.secret, cfg.mac, reqs[0].signature, reqs[0].body) == Accept {
            assert out == Dispatch(reqs[0].event, Payload(reqs[0].json).value, st);
          }
        }
      }
      RunAppendOnly(cfg, reqs[1..], next);
      var final := Run(cfg, reqs[1..], next);
      assert final.records[..|next.records|] == next.records;
      assert final.records[..|st.records|] == final.records[..|next.records|][..|st.records|];
    }
  }

  /** With eleven stored records the feed shows exactly ten. */
  lemma ElevenShowTen(st: Store)
    requires st.online && |st.records| == 11
    ensures |GetEvents(st).reply.records| == 10
  {
  }
}

=== FILE: wrappers.dfy ===
/** Failure-compatible wrappers used by every other module: an optional value and
    a value-or-error result, both usable with `:-`. */
module Wrappers {

  datatype Option<+T> = None | Some(value: T) {

    predicate IsFailure() {
      None?
    }

    function PropagateFailure<U>(): Option<U>
      requires None?
    {
      None
    }

    function Extract(): T
      requires Some?
    {
      value
    }
  }

  datatype Result<+R, +E> = Success(value: R) | Failure(error: E) {

    predicate IsFailure() {
      Failure?
    }

    function PropagateFailure<U>(): Result<U, E>
      requires Failure?
    {
      Failure(error)
    }

    function Extract(): R
      requires Success?
    {
      value
    }
  }
}
